=== FILE: README.md ===
# Sliding-window rate limiter

A Dafny model of `rateLimiterWithRollingWindow`, a distributed sliding-window
rate limiter built on Redis sorted sets. Each API path (the key) owns a
sorted set of millisecond timestamps. One call runs a single MULTI/EXEC
transaction with four commands:

1. remove every score from 0 up to the cutoff, inclusive;
2. add the current time, as both member and score;
3. give the key a 60-second time to live;
4. read the whole set back.

The call is denied when the set read back holds more members than the
caller's limit. Otherwise it is admitted. The model takes that read to return
the set's members, as the in-memory Redis double used by the test suite does.
Against a real Redis server the read is malformed and every call is admitted;
"## Left out" says why.

The model is functional. The shared store is a map from key to an `Entry`
that holds a set of timestamps and an expiry instant. A read at or after the
expiry instant sees an empty set. One committed transaction is the pure
function `RateLimiter.Step`. Because the transaction is atomic, any
interleaving of callers, on one process or many, is a sequence of steps
(`Traces.Run`).

Modules:

- `Window` (window.dfy): the constants, the cutoff, the inclusive
  range removal and the prune, and the counting bound for a window.
- `SortedSetStore` (store.dfy): keys, entries, reads that respect expiry,
  and the cardinality read used by the tests.
- `RateLimiter` (rate_limiter.dfy): the transaction `Step`, and
  `CheckAndRecord`, which adds the store-failure outcome.
- `StepProperties` (step_properties.dfy): lemmas about one call.
- `Traces` (traces.dfy): runs of calls, and lemmas about them.
- `Scenarios` (scenarios.dfy): the scenarios of
  `tests/rateLimiter.test.js`, stated for any start time.

Behaviour reproduced as the code has it:

- **The prune distance is 6000 ms, not 60 s.** The cutoff is
  `now - rollingWindowLengthInSeconds * 100` (rateLimiter.js:33). Timestamps
  are milliseconds, so calls are forgotten after 6 s. The comment at
  rateLimiter.js:13 says elements "older than a minute" are removed, and the
  comment at rateLimiter.js:38 gives the key a "TTL of 60 seconds", so a
  factor of 1000 looks intended. The test at tests/rateLimiter.test.js:53-68
  relies on the 6000 ms figure: it advances the clock by 6000 ms
  (tests/rateLimiter.test.js:60) and expects the earlier calls to be gone. The
  model therefore keeps 6000 ms as `PruneDistance`. The time to live stays a
  separate constant, `TimeToLive = 60000` ms, because `EXPIRE` takes seconds
  (rateLimiter.js:39).
- **The prune is inclusive.** Redis's `ZREMRANGEBYSCORE key min max` includes
  both bounds, so `ZREMRANGEBYSCORE key 0 cutoff` (rateLimiter.js:36) removes
  every score `s` with `0 <= s <= cutoff`. A timestamp exactly at the cutoff is
  pruned.
- **Duplicate timestamps collapse.** Member and score are the same value.
  Two calls in the same millisecond therefore hold one slot
  (`StepIdempotent`).
- **Denied calls still count.** The call's own timestamp is recorded whether
  the call is admitted or denied.

## Model

| member | source | states |
|---|---|---|
| `Window.Prune` | rateLimiter.js:33-36 | The prune at `now` keeps exactly the members newer than `now - 6000`. Everything it removes is at or below that cutoff. |
| `Window.PruneAbsorbsEarlierPrune` | rateLimiter.js:33-36 | Pruning at one time and then at a later time equals pruning once at the later time, so the prunes of successive calls never remove more than the latest cutoff demands. |
| `Window.PruneWindowBound` | rateLimiter.js:33-37 | If no member is newer than `now`, the pruned set plus `now` lies inside `(now - 6000, now]` and has at most 6000 members. |
| `RateLimiter.Step` | rateLimiter.js:32-50 | After the transaction, `now` is a member. A timestamp is a member exactly when it is `now` or was live and newer than the cutoff. The call is admitted exactly when the count is at most the limit. The key expires 60000 ms after `now`. Every other key is untouched. |
| `RateLimiter.CheckAndRecord` | rateLimiter.js:41-50 | A failed transaction leaves the store as it was and reports an error instead of a decision. A committed one has exactly the effect and the decision of `Step`: the key is pruned, holds `now`, expires 60000 ms later, and the call is admitted exactly when the count is at most the limit. Other keys are untouched either way. |
| `RateLimiter.FailedCallInvisibleToRetry` | rateLimiter.js:35-42 | A call whose transaction was not applied leaves no trace. Any later committed call on the key, at any clock reading and under any limit, gives the same store and decision as it would have if the failed call had never been made. |
| `StepProperties.AfterStepIsEarlierPlusNow` | rateLimiter.js:36-37 | The key's new set is exactly the earlier in-window timestamps plus `now`, and `now` is not among the earlier ones. |
| `StepProperties.DecisionRule` | rateLimiter.js:40-50 | In terms of the state before the call: admitted exactly when fewer than `limit` other timestamps lie in the window. The post-call count is that number plus one, so a count equal to the limit is admitted. |
| `StepProperties.FirstCallAdmitted` | rateLimiter.js:36-49 | On a key with nothing live, any limit of at least 1 admits the call, and the key then holds only `now`. |
| `StepProperties.NonPositiveLimitDenies` | rateLimiter.js:46-47 | A limit below 1 denies every call. |
| `StepProperties.EarlierCallForgotten` | rateLimiter.js:33-36 | A live earlier timestamp `x` still counts exactly while `now - x < 6000`, or when it equals `now`. |
| `StepProperties.StepFootprint` | rateLimiter.js:33-37 | If no stored timestamp is later than `now`, the key afterwards holds only timestamps in `(now - 6000, now]`, so at most 6000 of them. |
| `StepProperties.StepPreservesClockBound` | rateLimiter.js:32-37 | A call at `now` keeps every stored timestamp of every key at or below `now`. |
| `StepProperties.StepIdempotent` | rateLimiter.js:36-37 | Repeating a call with the same key, limit and time gives the same store and the same decision. |
| `StepProperties.StepDependsOnlyOnOwnEntry` | rateLimiter.js:36-40 | Two stores that agree on the key give the same decision and leave the key in the same state. |
| `StepProperties.DistinctKeysCommute` | rateLimiter.js:35-41 | Calls on two different keys give the same final store and the same decisions in either order. |
| `StepProperties.ExpiryAfterTimeToLive` | rateLimiter.js:38-39 | After the call, the key still holds `now` for every read before `now + 60000` and reads as empty from then on. |
| `Traces.Run` | rateLimiter.js:35-41 | A run of atomic transactions gives exactly one decision per call. |
| `Traces.RunDecisionAt` | rateLimiter.js:35-50 | The decision a run gives its `i`-th call is the decision of one transaction on the store left by the calls before it. |
| `Traces.RunPreservesClockBound` | rateLimiter.js:32-37 | If the clock never runs backwards, no stored timestamp is ever later than the latest call's time. |
| `Traces.RunFootprint` | rateLimiter.js:33-37 | Along a trace with a non-decreasing clock, right after each call its key holds only timestamps in that call's window, so at most 6000 of them. |
| `Traces.BurstCounts` | rateLimiter.js:36-50 | For calls on one key at distinct times inside one window, on top of `prior` in-window timestamps, the call at position `i` is admitted exactly when `|prior| + i + 1 <= limit`. |
| `Traces.QuotaThenDenied` | rateLimiter.js:46-50 | On a fresh key, `limit + 1` calls at distinct milliseconds inside one window admit the first `limit` calls and deny the last. |
| `Traces.KeysIsolated` | rateLimiter.js:36-40 | However calls on other keys are interleaved, the calls on a key get the decisions they would get alone, and leave the key in the same state. |
| `Traces.OtherKeysLeaveEntry` | rateLimiter.js:36-39 | A trace that never calls on a key leaves that key's entry unchanged. |
| `Traces.IdleKeyReclaimed` | rateLimiter.js:38-39 | After a call at `now` and only calls on other keys, the key has cardinality 0 at any time from `now + 60000`. Before that it still holds `now`. |
| `Scenarios.FirstCallIsAdmitted` | tests/rateLimiter.test.js:20-25 | The first call on a flushed store, limit 10, is admitted. |
| `Scenarios.ThirdCallAgainstLimit` | tests/rateLimiter.test.js:27-51 | Three calls 1 ms apart: the third is admitted exactly when the limit is at least 3. |
| `Scenarios.DeniedWithinLastMillisecond` | tests/rateLimiter.test.js:106-117 | Calls at `t0`, `t0 + 1` and `t0 + 5901` under limit 2: the third is denied. |
| `Scenarios.AdmittedAfterWindowPasses` | tests/rateLimiter.test.js:53-68 | Calls at `t0`, `t0 + 1`, `t0 + 2` and `t0 + 6002` under limit 2: the fourth is admitted. |
| `Scenarios.KeyDeletedAfterTimeToLive` | tests/rateLimiter.test.js:70-78 | 60000 ms after a single call, the key's cardinality is 0. |
| `Scenarios.KeysDoNotShareQuota` | tests/rateLimiter.test.js:80-91 | A call on one key does not count against two later calls on another key under limit 2. |

## Left out

- The Redis client, MULTI command queuing and EXEC are foreign code. The
  store is an abstract map, and the transaction is the one atomic `Step`.
- The clock read `new Date().getTime()` (rateLimiter.js:32) is not modelled.
  The time is a parameter `now`. Trace lemmas that need a clock that never
  runs backwards say so in their preconditions.
- The error path (rateLimiter.js:42) is only partly modelled. It passes the
  error to the callback, does not return, and then reads `results[3]` anyway.
  The model keeps only the all-or-nothing outcome: `CheckAndRecord` with a
  failed transaction leaves the store unchanged and reports
  `StoreUnavailable`. The second callback invocation or crash that follows is
  I/O behaviour, not modelled.
- FailedCallInvisibleToRetry: `Failed` stands only for an EXEC that the
  server did not apply. If the server runs EXEC but the reply is lost, the
  callback at rateLimiter.js:42 still receives an error, yet the store has
  changed as in a committed call. The model does not cover that case, so the
  lemma promises nothing about it.
- The model does not model how a real Redis server answers the count read.
  The count is `results[3].length` (rateLimiter.js:46), the reply to
  `ZRANGE key 0 -1 withscore` (rateLimiter.js:40). Redis accepts `WITHSCORES`
  there but not `withscore`, so a real server answers that command with a
  syntax error when EXEC runs. The client places the error in `results[3]`,
  whose `length` is `undefined`. `undefined > maxAPILimit` is false, so against
  a real server the source admits every call, while the prune, insert and
  expiry still apply. The model follows the in-memory double the tests run
  against (tests/rateLimiter.test.js:5), which ignores the option and returns
  the members. The model therefore counts the set's cardinality. This follows
  Redis's documented ZRANGE syntax and its per-command error replies inside
  EXEC.
- Callbacks are not modelled. Results are returned values.
- Members are JavaScript numbers sent to Redis as strings. The model uses
  naturals instead. Millisecond clock readings are integers well below 2^53,
  so nothing is lost.
- Limits are modelled as integers. A fractional limit `q` decides like its
  floor, because counts are integers, so it is not modelled separately.
- `CheckAndRecord` does not model limits that are not numbers or not
  finite. For `NaN`, `undefined` or `Infinity` the comparison
  `results[3].length > maxAPILimit` (rateLimiter.js:46) is false, so every call
  is admitted. For `-Infinity` every call is denied. The model's limit is an
  integer, so these cases are outside it.
- Redis deletes a sorted set that a removal empties. Inside the transaction
  the next command re-creates the key at once, so this is not observable and
  not modelled.
- Expiry is at millisecond resolution. A key reads as empty from its expiry
  instant on, which is what the test at tests/rateLimiter.test.js:70-78
  observes. Redis's own sub-second expiry timing is not modelled.
- The model uses one clock where the source has two. `EXPIRE`
  (rateLimiter.js:39) counts down on the store's clock, while the timestamps
  come from the caller's clock (rateLimiter.js:32). The model sets the expiry
  to the caller's `now` plus 60000 ms and reads the store at caller times.
  Skew between the two clocks is not modelled.
- Concurrency between processes is not modelled separately. Each call is one
  atomic transaction, so a sequential trace covers every interleaving the
  store can produce.

=== FILE: rate_limiter.dfy ===
/** The sliding-window limiter: one call prunes, inserts, refreshes the expiry
    and counts, all as a single atomic transaction against the store. */
module RateLimiter {
  import opened Window
  import opened SortedSetStore

  datatype StepResult = StepResult(store: Store, admitted: bool)

  /** The entry a call at `now` leaves behind for its key: the live members
      pruned at `now`, plus `now`, expiring a time to live later. */
  function RecordedEntry(store: Store, key: Key, now: Timestamp): Entry
  {
    Entry(Prune(Members(store, key, now), now) + {now}, now + TimeToLive)
  }

  /** One committed transaction for `key` at clock reading `now`, checked
      against `limit`. In order: prune every score up to the cutoff, add `now`
      (as member and score), give the key a fresh time to live, read the
      whole set back and deny the call when it holds more than `limit`
      members. The call's own timestamp is recorded whatever the decision. */
  function Step(store: Store, key: Key, limit: int, now: Timestamp): (r: StepResult)
    ensures now in Members(r.store, key, now)
    ensures forall x :: x in Members(r.store, key, now) <==>
                          x == now || (x in Members(store, key, now) && Cutoff(now) < x)
    ensures r.admitted <==> Card(r.store, key, now) <= limit
    ensures key in r.store && r.store[key].expiresAt == now + TimeToLive
    ensures forall k :: k != key ==> SameEntry(r.store, store, k)
  {
    var entry := RecordedEntry(store, key, now);
    var store' := store[key := entry];
    if |entry.members| > limit then StepResult(store', false) else StepResult(store', true)
  }

  /** Whether the store committed the transaction or reported a failure. */
  datatype ExecStatus = Committed | Failed

  datatype Reply = Decision(admitted: bool) | StoreUnavailable

  datatype Outcome = Outcome(store: Store, reply: Reply)

  /** The limiter as its caller sees it. The transaction is all-or-nothing:
      when the store reports a failure, nothing is applied and the caller gets
      the error instead of a decision. */
  function CheckAndRecord(store: Store, key: Key, limit: int, now: Timestamp, exec: ExecStatus): (o: Outcome)
    ensures exec.Failed? ==> o.store == store && o.reply == StoreUnavailable
    ensures exec.Committed? ==> o.reply.Decision? && now in Members(o.store, key, now)
    ensures exec.Committed? ==> (o.reply.admitted <==> Card(o.store, key, now) <= limit)
    ensures exec.Committed? ==> o.store == Step(store, key, limit, now).store
    ensures exec.Committed? ==> o.reply == Decision(Step(store, key, limit, now).admitted)
    ensures forall k :: k != key ==> SameEntry(o.store, store, k)
  {
    match exec
    case Failed => Outcome(store, StoreUnavailable)
    case Committed =>
      var r := Step(store, key, limit, now);
      Outcome(r.store, Decision(r.admitted))
  }

  /** A failed call is invisible: any later committed call on the same key,
      whatever its clock reading and limit, gives exactly what it would have
      given had the failed call never been made. */
  lemma FailedCallInvisibleToRetry(store: Store, key: Key, limit: int, now: Timestamp,
                                   limit2: int, now2: Timestamp)
    ensures CheckAndRecord(CheckAndRecord(store, key, limit, now, Failed).store, key, limit2, now2, Committed)
         == CheckAndRecord(store, key, limit2, now2, Committed)
  {
    var failed := CheckAndRecord(store, key, limit, now, Failed);
    assert failed.store == store;
  }
}

=== FILE: scenarios.dfy ===
/** The scenarios the limiter's own test suite exercises, stated for an
    arbitrary start time `t0` on a freshly flushed store. */
module Scenarios {
  import opened Window
  import opened SortedSetStore
  import opened RateLimiter
  import opened StepProperties
  import opened Traces

  const Flushed: Store := map[]

  /** Calls on `key` under `limit` at `t0 + offsets[i]`. */
  function Burst(key: Key, limit: int, t0: Timestamp, offsets: seq<nat>): (calls: seq<Call>)
    ensures |calls| == |offsets|
    ensures AllOn(calls, key, limit)
    ensures forall i :: 0 <= i < |calls| ==> calls[i].now == t0 + offsets[i]
  {
    seq(|offsets|, i requires 0 <= i < |offsets| => Call(key, limit, t0 + offsets[i]))
  }

  /** The first call on a key is admitted. */
  lemma FirstCallIsAdmitted(t0: Timestamp)
    ensures Run(Flushed, [Call("APIOne", 10, t0)]).decisions == [true]
  {
    FirstCallAdmitted(Flushed, "APIOne", 10, t0);
  }

  /** Three calls a millisecond apart under a limit of 5, of 3, and of 2:
      the third is admitted under 5 and under 3 (a count equal to the limit
      passes) and denied under 2. */
  lemma ThirdCallAgainstLimit(t0: Timestamp, limit: int)
    ensures Run(Flushed, Burst("APIOne", limit, t0, [0, 1, 2])).decisions[2] <==> 3 <= limit
  {
    var calls := Burst("APIOne", limit, t0, [0, 1, 2]);
    BurstCounts(Flushed, "APIOne", limit, calls, {});
  }

  /** Two calls a millisecond apart and a third 5900 ms later, limit 2: the
      first call is still inside the window, so the third is denied. */
  lemma DeniedWithinLastMillisecond(t0: Timestamp)
    ensures !Run(Flushed, Burst("APIOne", 2, t0, [0, 1, 5901])).decisions[2]
  {
    var calls := Burst("APIOne", 2, t0, [0, 1, 5901]);
    BurstCounts(Flushed, "APIOne", 2, calls, {});
  }

  /** Three calls a millisecond apart, limit 2, then a fourth 6000 ms after
      the third: by then all three earlier timestamps have been pruned and
      the fourth is admitted. */
  lemma AdmittedAfterWindowPasses(t0: Timestamp)
    ensures Run(Flushed, Burst("APIOne", 2, t0, [0, 1, 2, 6002])).decisions[3]
  {
    var calls := Burst("APIOne", 2, t0, [0, 1, 2, 6002]);
    var first := calls[..3];
    var last := calls[3];
    assert calls == first + [last];
    RunAppendDecisions(Flushed, first, [last]);
    RunPreservesClockBound(Flushed, first, t0);
    var mid := Run(Flushed, first).store;
    assert ClockBound(mid, t0 + 2);
    assert Earlier(mid, "APIOne", t0 + 6002) == {};
    DecisionRule(mid, "APIOne", 2, t0 + 6002);
  }

  /** A call, then nothing for 60000 ms: the key reads as empty. */
  lemma KeyDeletedAfterTimeToLive(t0: Timestamp)
    ensures Card(Run(Flushed, [Call("APIOne", 2, t0)]).store, "APIOne", t0 + 60000) == 0
  {
    ExpiryAfterTimeToLive(Flushed, "APIOne", 2, t0, t0 + 60000);
    assert Run(Flushed, [Call("APIOne", 2, t0)]).store == Step(Flushed, "APIOne", 2, t0).store;
  }

  /** One call on one key under limit 1, then two on another key under limit
      2: the first key's call does not count against the second key. */
  lemma KeysDoNotShareQuota(t0: Timestamp)
    ensures Run(Flushed, [Call("APIOne", 1, t0), Call("APITwo", 2, t0 + 1), Call("APITwo", 2, t0 + 2)]).decisions[2]
  {
    var c1, c2, c3 := Call("APIOne", 1, t0), Call("APITwo", 2, t0 + 1), Call("APITwo", 2, t0 + 2);
    var calls := [c1, c2, c3];
    assert "APIOne"[3] != "APITwo"[3];
    KeysIsolated(Flushed, Flushed, calls, "APITwo");
    var ds := Run(Flushed, calls).decisions;
    assert calls[1..] == [c2, c3];
    assert calls[1..][1..] == [c3];
    assert OnKey(calls, "APITwo") == [c2, c3];
    assert DecisionsOn([c3], ds[2..], "APITwo") == [ds[2]];
    assert ds[1..][1..] == ds[2..];
    assert DecisionsOn([c2, c3], ds[1..], "APITwo") == [ds[1], ds[2]];
    assert DecisionsOn(calls, ds, "APITwo") == [ds[1], ds[2]];
    BurstCounts(Flushed, "APITwo", 2, [c2, c3], {});
    assert [ds[1], ds[2]] == Run(Flushed, [c2, c3]).decisions;
    assert ds[2] == Run(Flushed, [c2, c3]).decisions[1];
  }
}

=== FILE: step_properties.dfy ===
/** Properties of a single limiter call. */
module StepProperties {
  import opened Window
  import opened SortedSetStore
  import opened RateLimiter

  /** The members the call at `now` finds in the window, other than its own
      timestamp: the competition the call is judged against. */
  function Earlier(store: Store, key: Key, now: Timestamp): set<Timestamp>
  {
    set x | x in Members(store, key, now) && Cutoff(now) < x && x != now
  }

  /** After the call, the key holds exactly the earlier in-window timestamps
      plus the call's own. */
  lemma AfterStepIsEarlierPlusNow(store: Store, key: Key, limit: int, now: Timestamp)
    ensures Members(Step(store, key, limit, now).store, key, now) == Earlier(store, key, now) + {now}
    ensures now !in Earlier(store, key, now)
  {
  }

  /** The decision rule in terms of the state before the call: admitted
      exactly when fewer than `limit` other timestamps lie in the window. A
      count equal to the limit is still admitted. */
  lemma DecisionRule(store: Store, key: Key, limit: int, now: Timestamp)
    ensures Step(store, key, limit, now).admitted <==> |Earlier(store, key, now)| < limit
    ensures Card(Step(store, key, limit, now).store, key, now) == |Earlier(store, key, now)| + 1
  {
    AfterStepIsEarlierPlusNow(store, key, limit, now);
    var e := Earlier(store, key, now);
    assert |e + {now}| == |e| + 1;
  }

  /** A key with nothing live is admitted under any limit of at least one,
      and afterwards holds the one timestamp of this call. */
  lemma FirstCallAdmitted(store: Store, key: Key, limit: int, now: Timestamp)
    requires Members(store, key, now) == {}
    requires 1 <= limit
    ensures Step(store, key, limit, now).admitted
    ensures Members(Step(store, key, limit, now).store, key, now) == {now}
  {
    DecisionRule(store, key, limit, now);
    assert Earlier(store, key, now) == {};
  }

  /** A limit below one denies every call, because the call's own timestamp
      is always counted. */
  lemma NonPositiveLimitDenies(store: Store, key: Key, limit: int, now: Timestamp)
    requires limit < 1
    ensures !Step(store, key, limit, now).admitted
  {
    DecisionRule(store, key, limit, now);
  }

  /** An earlier call stops counting exactly when the clock has moved the
      prune distance past it: it is still counted while `now - x < 6000` and
      gone once `now - x >= 6000` (a timestamp exactly at the cutoff is
      pruned). */
  lemma EarlierCallForgotten(store: Store, key: Key, limit: int, now: Timestamp, x: Timestamp)
    requires x in Members(store, key, now)
    ensures x in Members(Step(store, key, limit, now).store, key, now) <==>
              (x == now || now - x < PruneDistance)
  {
  }

  /** With no member newer than the clock, the call leaves its key holding
      only timestamps in `(now - 6000, now]`, hence at most 6000 of them. */
  lemma StepFootprint(store: Store, key: Key, limit: int, now: Timestamp)
    requires ClockBound(store, now)
    ensures InWindow(Members(Step(store, key, limit, now).store, key, now), now)
    ensures Card(Step(store, key, limit, now).store, key, now) <= PruneDistance
  {
    var live := Members(store, key, now);
    assert forall x :: x in live ==> x <= now;
    PruneWindowBound(live, now);
    assert Members(Step(store, key, limit, now).store, key, now) == Prune(live, now) + {now};
  }

  /** A call keeps every stored timestamp no later than its own clock reading. */
  lemma StepPreservesClockBound(store: Store, key: Key, limit: int, now: Timestamp)
    requires ClockBound(store, now)
    ensures ClockBound(Step(store, key, limit, now).store, now)
  {
    var s' := Step(store, key, limit, now).store;
    forall k, x | k in s' && x in s'[k].members
      ensures x <= now
    {
      if k == key {
        assert x in Members(s', key, now);
      } else {
        assert SameEntry(s', store, k);
      }
    }
  }

  /** Repeating a call with the same key, limit and clock reading changes
      nothing and gives the same answer: the prune has nothing left to remove
      and the timestamp is already a member. Two calls in the same
      millisecond therefore occupy one slot. */
  lemma StepIdempotent(store: Store, key: Key, limit: int, now: Timestamp)
    ensures Step(Step(store, key, limit, now).store, key, limit, now) == Step(store, key, limit, now)
  {
    var r := Step(store, key, limit, now);
    var r2 := Step(r.store, key, limit, now);
    assert Members(r2.store, key, now) == Members(r.store, key, now);
    assert r2.store[key] == r.store[key];
    assert r2.store == r.store;
  }

  /** A call's effect and decision depend only on its own key's entry. */
  lemma StepDependsOnlyOnOwnEntry(s1: Store, s2: Store, key: Key, limit: int, now: Timestamp)
    requires SameEntry(s1, s2, key)
    ensures Step(s1, key, limit, now).admitted == Step(s2, key, limit, now).admitted
    ensures SameEntry(Step(s1, key, limit, now).store, Step(s2, key, limit, now).store, key)
  {
    assert Members(s1, key, now) == Members(s2, key, now);
  }

  /** Map updates at two different keys commute. */
  lemma UpdatesAtDistinctKeysCommute(store: Store, k1: Key, e1: Entry, k2: Key, e2: Entry)
    requires k1 != k2
    ensures store[k1 := e1][k2 := e2] == store[k2 := e2][k1 := e1]
  {
  }

  /** Calls on different keys commute: the final store and both decisions are
      the same whichever runs first. */
  lemma DistinctKeysCommute(store: Store, k1: Key, l1: int, t1: Timestamp, k2: Key, l2: int, t2: Timestamp)
    requires k1 != k2
    ensures Step(Step(store, k1, l1, t1).store, k2, l2, t2).store
         == Step(Step(store, k2, l2, t2).store, k1, l1, t1).store
    ensures Step(Step(store, k1, l1, t1).store, k2, l2, t2).admitted == Step(store, k2, l2, t2).admitted
    ensures Step(Step(store, k2, l2, t2).store, k1, l1, t1).admitted == Step(store, k1, l1, t1).admitted
  {
    var a := Step(store, k1, l1, t1).store;
    var c := Step(store, k2, l2, t2).store;
    var e1 := RecordedEntry(store, k1, t1);
    var e2 := RecordedEntry(store, k2, t2);
    StepDependsOnlyOnOwnEntry(a, store, k2, l2, t2);
    StepDependsOnlyOnOwnEntry(c, store, k1, l1, t1);
    assert Members(a, k2, t2) == Members(store, k2, t2);
    assert Members(c, k1, t1) == Members(store, k1, t1);
    assert RecordedEntry(a, k2, t2) == e2;
    assert RecordedEntry(c, k1, t1) == e1;
    UpdatesAtDistinctKeysCommute(store, k1, e1, k2, e2);
  }

  /** The expiry the call sets: the key stays readable, holding at least this
      call's timestamp, until the time to live has elapsed, and reads as empty
      from then on. */
  lemma ExpiryAfterTimeToLive(store: Store, key: Key, limit: int, now: Timestamp, t: Timestamp)
    requires now <= t
    ensures t < now + TimeToLive ==> now in Members(Step(store, key, limit, now).store, key, t)
    ensures now + TimeToLive <= t ==> Card(Step(store, key, limit, now).store, key, t) == 0
  {
  }
}

=== FILE: store.dfy ===
/** An abstract key-value store of sorted sets with per-key expiry: the part
    of the shared store the limiter relies on. Each key holds a set of
    timestamps and the instant at which the whole key expires. */
module SortedSetStore {
  import opened Window

  type Key = string

  datatype Entry = Entry(members: set<Timestamp>, expiresAt: Timestamp)

  type Store = map<Key, Entry>

  /** The members of `key` as a read at time `t` sees them: a missing key and
      a key whose expiry instant has been reached both read as empty. */
  function Members(store: Store, key: Key, t: Timestamp): set<Timestamp>
  {
    if key in store && t < store[key].expiresAt then store[key].members else {}
  }

  /** ZCARD at time `t`. */
  function Card(store: Store, key: Key, t: Timestamp): nat
  {
    |Members(store, key, t)|
  }

  /** `key` is stored identically in both stores, so every read of it, at any
      time, agrees. */
  predicate SameEntry(s1: Store, s2: Store, key: Key)
  {
    (key in s1 <==> key in s2) && (key in s1 ==> s1[key] == s2[key])
  }

  /** No stored member of any key is later than `clock`. */
  ghost predicate ClockBound(store: Store, clock: Timestamp)
  {
    forall k, x :: k in store && x in store[k].members ==> x <= clock
  }
}

=== FILE: traces.dfy ===
/** Sequences of limiter calls. Each call is one atomic transaction, so any
    interleaving of callers, on one machine or many, is a sequence of steps. */
module Traces {
  import opened Window
  import opened SortedSetStore
  import opened RateLimiter
  import opened StepProperties

  datatype Call = Call(key: Key, limit: int, now: Timestamp)

  datatype RunResult = RunResult(store: Store, decisions: seq<bool>)

  /** Applies the calls in order and collects one decision per call. */
  function Run(store: Store, calls: seq<Call>): (r: RunResult)
    ensures |r.decisions| == |calls|
    decreases |calls|
  {
    if |calls| == 0 then RunResult(store, [])
    else
      var first := Step(store, calls[0].key, calls[0].limit, calls[0].now);
      var rest := Run(first.store, calls[1..]);
      RunResult(rest.store, [first.admitted] + rest.decisions)
  }

  /** The clock never runs backwards along the trace. */
  ghost predicate NonDecreasing(calls: seq<Call>)
  {
    forall i, j :: 0 <= i < j < |calls| ==> calls[i].now <= calls[j].now
  }

  /** The clock reading after the trace: that of its last call, or `clock` for
      an empty trace. */
  function FinalClock(calls: seq<Call>, clock: Timestamp): Timestamp
  {
    if |calls| == 0 then clock else calls[|calls| - 1].now
  }

  /** Running `a` then `b` ends in the store that running `a + b` ends in. */
  lemma {:induction false} RunAppendStore(store: Store, a: seq<Call>, b: seq<Call>)
    ensures Run(store, a + b).store == Run(Run(store, a).store, b).store
    decreases |a|
  {
    if |a| > 0 {
      var first := Step(store, a[0].key, a[0].limit, a[0].now);
      var ab := a + b;
      assert ab[0] == a[0];
      assert ab[1..] == a[1..] + b;
      RunAppendStore(first.store, a[1..], b);
      assert Run(store, a).store == Run(first.store, a[1..]).store;
      assert Run(store, ab).store == Run(first.store, ab[1..]).store;
    } else {
      assert a + b == b;
    }
  }

  /** Running `a + b` gives the decisions of `a` followed by those of `b`. */
  lemma {:induction false} RunAppendDecisions(store: Store, a: seq<Call>, b: seq<Call>)
    ensures Run(store, a + b).decisions == Run(store, a).decisions + Run(Run(store, a).store, b).decisions
    decreases |a|
  {
    if |a| > 0 {
      var first := Step(store, a[0].key, a[0].limit, a[0].now);
      var ab := a + b;
      assert ab[0] == a[0];
      assert ab[1..] == a[1..] + b;
      RunAppendDecisions(first.store, a[1..], b);
      var mid := Run(first.store, a[1..]);
      var whole := Run(first.store, ab[1..]);
      assert Run(store, a) == RunResult(mid.store, [first.admitted] + mid.decisions);
      assert Run(store, ab) == RunResult(whole.store, [first.admitted] + whole.decisions);
      assert whole.decisions == mid.decisions + Run(mid.store, b).decisions;
    } else {
      assert a + b == b;
    }
  }

  /** The decision a run gives its `i`-th call is the decision of one step
      taken on the store left by the calls before it. */
  lemma RunDecisionAt(store: Store, calls: seq<Call>, i: nat)
    requires i < |calls|
    ensures Run(store, calls).decisions[i]
         == Step(Run(store, calls[..i]).store, calls[i].key, calls[i].limit, calls[i].now).admitted
  {
    var upto := calls[..i + 1];
    DecisionOfPrefix(store, calls, i);
    DecisionOfLast(store, upto);
    assert upto[..i] == calls[..i];
  }

  /** Later calls do not change the decisions given to earlier ones. */
  lemma DecisionOfPrefix(store: Store, calls: seq<Call>, i: nat)
    requires i < |calls|
    ensures Run(store, calls).decisions[i] == Run(store, calls[..i + 1]).decisions[i]
  {
    assert calls == calls[..i + 1] + calls[i + 1..];
    RunAppendDecisions(store, calls[..i + 1], calls[i + 1..]);
  }

  /** The last call of a run is decided by one step on the store the others left. */
  lemma DecisionOfLast(store: Store, calls: seq<Call>)
    requires |calls| > 0
    ensures Run(store, calls).decisions[|calls| - 1]
         == Step(Run(store, calls[..|calls| - 1]).store, calls[|calls| - 1].key,
                 calls[|calls| - 1].limit, calls[|calls| - 1].now).admitted
  {
    var n := |calls| - 1;
    var c := calls[n];
    var before := calls[..n];
    assert calls == before + [c];
    RunAppendDecisions(store, before, [c]);
    SingleCallRun(Run(store, before).store, c);
  }

  /** A run of one call is one step. */
  lemma SingleCallRun(store: Store, c: Call)
    ensures Run(store, [c]).decisions == [Step(store, c.key, c.limit, c.now).admitted]
  {
    assert [c][1..] == [];
  }

  /** With a clock that never runs backwards and starts no earlier than every
      stored timestamp, no stored timestamp is ever later than the clock. */
  lemma {:induction false} RunPreservesClockBound(store: Store, calls: seq<Call>, clock: Timestamp)
    requires ClockBound(store, clock)
    requires NonDecreasing(calls)
    requires forall i :: 0 <= i < |calls| ==> clock <= calls[i].now
    ensures ClockBound(Run(store, calls).store, FinalClock(calls, clock))
    decreases |calls|
  {
    if |calls| > 0 {
      var c := calls[0];
      assert ClockBound(store, c.now);
      StepPreservesClockBound(store, c.key, c.limit, c.now);
      var s' := Step(store, c.key, c.limit, c.now).store;
      RunPreservesClockBound(s', calls[1..], c.now);
      if |calls| > 1 {
        assert FinalClock(calls[1..], c.now) == FinalClock(calls, clock);
      }
    }
  }

  /** Footprint bound along a trace: right after every call, its key holds
      only timestamps in `(now - 6000, now]` of that call, hence at most 6000
      members. */
  lemma RunFootprint(store: Store, calls: seq<Call>, clock: Timestamp, i: nat)
    requires ClockBound(store, clock)
    requires NonDecreasing(calls)
    requires forall j :: 0 <= j < |calls| ==> clock <= calls[j].now
    requires i < |calls|
    ensures InWindow(Members(Run(store, calls[..i + 1]).store, calls[i].key, calls[i].now), calls[i].now)
    ensures Card(Run(store, calls[..i + 1]).store, calls[i].key, calls[i].now) <= PruneDistance
  {
    var c := calls[i];
    var prefix := calls[..i];
    assert calls[..i + 1] == prefix + [c];
    RunAppendStore(store, prefix, [c]);
    RunPreservesClockBound(store, prefix, clock);
    var mid := Run(store, prefix).store;
    assert ClockBound(mid, c.now);
    StepFootprint(mid, c.key, c.limit, c.now);
    assert Run(store, calls[..i + 1]).store == Step(mid, c.key, c.limit, c.now).store;
  }

  /** Every call of the trace is on `key` under `limit`. */
  ghost predicate AllOn(calls: seq<Call>, key: Key, limit: int)
  {
    forall i :: 0 <= i < |calls| ==> calls[i].key == key && calls[i].limit == limit
  }

  ghost predicate StrictlyIncreasing(calls: seq<Call>)
  {
    forall i, j :: 0 <= i < j < |calls| ==> calls[i].now < calls[j].now
  }

  /** A burst of calls on one key, all inside one prune window and at
      distinct milliseconds, on top of `prior` earlier timestamps that are
      also inside it: the call at position `i` sees `|prior| + i + 1`
      members and is admitted exactly when that does not exceed the limit. */
  lemma {:induction false} BurstCounts(store: Store, key: Key, limit: int, calls: seq<Call>, prior: set<Timestamp>)
    requires |calls| > 0
    requires AllOn(calls, key, limit)
    requires StrictlyIncreasing(calls)
    requires Cutoff(calls[|calls| - 1].now) < calls[0].now
    requires Members(store, key, calls[0].now) == prior
    requires forall x :: x in prior ==> Cutoff(calls[|calls| - 1].now) < x < calls[0].now
    ensures forall i :: 0 <= i < |calls| ==> Run(store, calls).decisions[i] == (|prior| + i + 1 <= limit)
    decreases |calls|
  {
    var now := calls[0].now;
    var last := calls[|calls| - 1].now;
    var r := Step(store, key, limit, now);
    var next := prior + {now};
    assert Prune(prior, now) == prior;
    assert Members(r.store, key, now) == next;
    assert now !in prior;
    assert |next| == |prior| + 1;
    assert r.admitted == (|prior| + 1 <= limit);
    if |calls| > 1 {
      var rest := calls[1..];
      assert rest[|rest| - 1].now == last;
      assert Members(r.store, key, rest[0].now) == next;
      BurstCounts(r.store, key, limit, rest, next);
      forall i | 0 <= i < |calls|
        ensures Run(store, calls).decisions[i] == (|prior| + i + 1 <= limit)
      {
        if i > 0 {
          assert Run(store, calls).decisions[i] == Run(r.store, rest).decisions[i - 1];
        }
      }
    }
  }

  /** On a key with nothing live, `limit + 1` calls at distinct milliseconds
      inside one prune window: the first `limit` are admitted and the last is
      denied. */
  lemma QuotaThenDenied(store: Store, key: Key, limit: nat, calls: seq<Call>)
    requires |calls| == limit + 1
    requires AllOn(calls, key, limit)
    requires StrictlyIncreasing(calls)
    requires Cutoff(calls[limit].now) < calls[0].now
    requires Members(store, key, calls[0].now) == {}
    ensures forall i :: 0 <= i < limit ==> Run(store, calls).decisions[i]
    ensures !Run(store, calls).decisions[limit]
  {
    BurstCounts(store, key, limit, calls, {});
  }

  /** The calls of the trace that are on `key`. */
  function OnKey(calls: seq<Call>, key: Key): (r: seq<Call>)
    ensures |r| <= |calls|
    ensures forall i :: 0 <= i < |r| ==> r[i].key == key
    decreases |calls|
  {
    if |calls| == 0 then []
    else (if calls[0].key == key then [calls[0]] else []) + OnKey(calls[1..], key)
  }

  /** The decisions given to the calls of the trace that are on `key`. */
  function DecisionsOn(calls: seq<Call>, decisions: seq<bool>, key: Key): (r: seq<bool>)
    requires |decisions| == |calls|
    ensures |r| == |OnKey(calls, key)|
    decreases |calls|
  {
    if |calls| == 0 then []
    else (if calls[0].key == key then [decisions[0]] else []) + DecisionsOn(calls[1..], decisions[1..], key)
  }

  /** Keys never influence each other: however the calls on other keys are
      interleaved, the calls on `key` get the decisions they would get if
      they were the only calls made, and leave `key` in the same state. */
  lemma {:induction false} KeysIsolated(s1: Store, s2: Store, calls: seq<Call>, key: Key)
    requires SameEntry(s1, s2, key)
    ensures DecisionsOn(calls, Run(s1, calls).decisions, key) == Run(s2, OnKey(calls, key)).decisions
    ensures SameEntry(Run(s1, calls).store, Run(s2, OnKey(calls, key)).store, key)
    decreases |calls|
  {
    if |calls| > 0 {
      var c := calls[0];
      var a := Step(s1, c.key, c.limit, c.now);
      var ds := Run(s1, calls).decisions;
      assert ds == [a.admitted] + Run(a.store, calls[1..]).decisions;
      assert ds[1..] == Run(a.store, calls[1..]).decisions;
      if c.key == key {
        var b := Step(s2, c.key, c.limit, c.now);
        StepDependsOnlyOnOwnEntry(s1, s2, key, c.limit, c.now);
        KeysIsolated(a.store, b.store, calls[1..], key);
        var tail := OnKey(calls[1..], key);
        assert OnKey(calls, key) == [c] + tail;
        assert ([c] + tail)[0] == c;
        assert ([c] + tail)[1..] == tail;
      } else {
        assert SameEntry(a.store, s1, key);
        KeysIsolated(a.store, s2, calls[1..], key);
        assert OnKey(calls, key) == OnKey(calls[1..], key);
      }
    }
  }

  /** A trace that never calls on `key` leaves its entry untouched. */
  lemma {:induction false} OtherKeysLeaveEntry(store: Store, calls: seq<Call>, key: Key)
    requires forall i :: 0 <= i < |calls| ==> calls[i].key != key
    ensures SameEntry(Run(store, calls).store, store, key)
    decreases |calls|
  {
    if |calls| > 0 {
      var c := calls[0];
      var s' := Step(store, c.key, c.limit, c.now).store;
      OtherKeysLeaveEntry(s', calls[1..], key);
    }
  }

  /** A key called at `now` and not called again reads as empty once the time
      to live has elapsed, whatever happens to other keys meanwhile; until
      then it still holds that call's timestamp. */
  lemma IdleKeyReclaimed(store: Store, key: Key, limit: int, now: Timestamp, calls: seq<Call>, t: Timestamp)
    requires forall i :: 0 <= i < |calls| ==> calls[i].key != key
    requires now <= t
    ensures now + TimeToLive <= t ==> Card(Run(Step(store, key, limit, now).store, calls).store, key, t) == 0
    ensures t < now + TimeToLive ==> now in Members(Run(Step(store, key, limit, now).store, calls).store, key, t)
  {
    var s' := Step(store, key, limit, now).store;
    OtherKeysLeaveEntry(s', calls, key);
    ExpiryAfterTimeToLive(store, key, limit, now, t);
  }
}

=== FILE: window.dfy ===
/** The timing constants of the rolling window and the prune that keeps one
    key's timestamp set inside it.

    Timestamps are millisecond clock readings and double as both member and
    score of a key's sorted set, so a set of naturals is all a key holds. */
module Window {

  type Timestamp = nat

  /** The window length, in seconds, that the limiter is configured with. */
  const RollingWindowLengthInSeconds: nat := 60

  /** How far behind `now` (in milliseconds) a timestamp must lie to be pruned.
      The limiter scales the window length by 100 rather than 1000, so the
      prune works on a 6000 ms window, not on a 60 s one. */
  const PruneDistance: nat := RollingWindowLengthInSeconds * 100

  /** The time to live refreshed on every call: EXPIRE takes seconds, so this
      is the full 60 s, in milliseconds. */
  const TimeToLive: nat := RollingWindowLengthInSeconds * 1000

  /** The largest score the prune at `now` removes; negative while the clock
      is still below the prune distance. */
  function Cutoff(now: Timestamp): int
  {
    now - PruneDistance
  }

  /** Every member lies in the prune window of `now`: `(now - 6000, now]`. */
  ghost predicate InWindow(members: set<Timestamp>, now: Timestamp)
  {
    forall x :: x in members ==> Cutoff(now) < x <= now
  }

  /** ZREMRANGEBYSCORE with inclusive bounds `min` and `max`, applied to the
      members of one sorted set. */
  function RemoveRangeByScore(members: set<Timestamp>, min: int, max: int): (r: set<Timestamp>)
    ensures r <= members
    ensures forall x :: x in members && (x < min || max < x) ==> x in r
    ensures forall x :: x in r ==> x < min || max < x
  {
    set x | x in members && !(min <= x <= max)
  }

  /** The prune issued at `now`: every score in `[0, Cutoff(now)]` goes.
      Because scores are never negative, what is kept is exactly the members
      strictly newer than the cutoff, and what goes is exactly the rest. */
  function Prune(members: set<Timestamp>, now: Timestamp): (r: set<Timestamp>)
    ensures r <= members
    ensures forall x :: x in members && Cutoff(now) < x ==> x in r
    ensures forall x :: x in r ==> Cutoff(now) < x
    ensures forall x :: x in members - r ==> x <= Cutoff(now)
  {
    RemoveRangeByScore(members, 0, Cutoff(now))
  }

  /** Pruning at `t1` and then at a later `t2` is the same as pruning once at
      `t2`: the later cutoff subsumes the earlier one. In particular pruning
      twice at the same time is pruning once. */
  lemma PruneAbsorbsEarlierPrune(members: set<Timestamp>, t1: Timestamp, t2: Timestamp)
    requires t1 <= t2
    ensures Prune(Prune(members, t1), t2) == Prune(members, t2)
  {
    assert forall x :: x in Prune(members, t2) ==> x in Prune(members, t1);
  }

  /** A set of naturals confined to the interval `(lo, hi]` has at most
      `hi - lo` elements. */
  lemma {:induction false} IntervalBound(s: set<Timestamp>, lo: int, hi: int)
    requires forall x :: x in s ==> lo < x <= hi
    ensures |s| <= if lo < hi then hi - lo else 0
    decreases if lo < hi then hi - lo else 0
  {
    if s != {} {
      var x :| x in s;
      assert lo < hi;
      var rest := s - {hi};
      IntervalBound(rest, lo, hi - 1);
      if hi in s {
        assert s == rest + {hi};
      } else {
        assert s == rest;
      }
    }
  }

  /** Whatever survives a prune at `now`, together with `now` itself, fits
      into the prune window provided no member is newer than `now`. */
  lemma PruneWindowBound(members: set<Timestamp>, now: Timestamp)
    requires forall x :: x in members ==> x <= now
    ensures InWindow(Prune(members, now) + {now}, now)
    ensures |Prune(members, now) + {now}| <= PruneDistance
  {
    IntervalBound(Prune(members, now) + {now}, Cutoff(now), now);
  }
}
